=== FILE: README.md ===
# Polygon stroke extraction — a Dafny model

This project models the logic of the manual stroke-extraction tool
(`manuallyStrokeExtractToolMainWindow.py`). The GUI collects a polygon from mouse
clicks. On export, every pixel of the loaded grayscale image that the even-odd
ray-casting test classifies as outside the polygon is forced to white (255).

The model has five modules:

- `Wrappers`: `Option` and `Result` values.
- `Geometry`: points with exact `real` coordinates, directed edges, and the per-edge crossing rule of
  `ray_tracing_method`. This covers the half-open span test `min < y <= max`, the test
  `x <= max(x1, x2)` and the intercept comparison.
- `RayCasting`: the reference definition `PointInPolygon` (true when an odd number of the closed
  edges `(poly[i], poly[(i+1) mod n])` is crossed). It also holds the scan of `ray_tracing_method`, written step
  by step as the methods `VisitEdge` and `RayTracing`, and the structural facts about the test.
- `Masking`: `ExtractStrokeByPolygon` (the nested pixel loop), `ExportImage` (what the extract
  button saves) and the properties of the mask.
- `Capture`: the point list of the drawing scene. A press appends one point, and it snaps to the
  first point when the click is within distance 10 of it. Clear empties the list.

Modelling choices:

- Coordinates are exact reals, so the intercept division is exact.
- `xints` is a Python local that `ray_tracing_method` assigns only on non-horizontal edges. The model
  carries it as an `Option<real>`, and reading it while unbound is an explicit failure.
  `VisitEdge` proves that failure never happens.
- The scan requires a non-empty polygon, because `ray_tracing_method` raises `IndexError` on `poly[0]`
  otherwise. The masking loop needs one only when the image has a pixel, since only then is the
  scan called.
- Images are immutable sequences of rows. The `image.copy()` of `extractStorkeByPolygon` is therefore implicit, and
  the caller's image is never changed.
- The width of each row is taken from that row. A numpy image has one width for all rows, so
  this is the same loop.
- The test is applied at the integer pixel index `(x, y)`, with no half-pixel offset
  (line 220).
- Coordinates are compared numerically. Scene and image y grow downwards, so "y at most every
  vertex's y" means "on or above the topmost vertex" on screen.
- Polygon capture (`GraphicsScene.mousePressEvent` and the point reset in `clearBtn`) is modelled
  as well.

## Model

| member | source | states |
|---|---|---|
| Geometry.SpansY | manuallyStrokeExtractToolMainWindow.py:235-236 | the half-open span test min(y1, y2) < y <= max(y1, y2) holds exactly when y lies in (y1, y2] or in (y2, y1], and then the edge is not horizontal |
| Geometry.XIntercept | manuallyStrokeExtractToolMainWindow.py:239 | `xints`: the point (xints, y) lies on the line through the edge's endpoints, and it is the start (end) abscissa at the start (end) height |
| Geometry.EdgeCrosses | manuallyStrokeExtractToolMainWindow.py:235-241 | the nested guards min < y, y <= max, x <= max(x1, x2), then a vertical edge or x <= xints; an edge that passes them is never horizontal |
| Geometry.HorizontalEdgeNeverCrosses | manuallyStrokeExtractToolMainWindow.py:235-238 | an edge with equal endpoint heights (the first iteration's self-edge included) fails the span guards, so it never flips the flag |
| Geometry.EdgeCrossesSymmetric | manuallyStrokeExtractToolMainWindow.py:235-241 | the crossing rule gives the same answer for an edge and its reverse |
| Geometry.XInterceptSymmetric | manuallyStrokeExtractToolMainWindow.py:239 | the intercept formula gives the same abscissa whichever endpoint is taken as the start |
| Geometry.XInterceptWithinEdge | manuallyStrokeExtractToolMainWindow.py:239 | on an edge whose span contains y, the intercept lies between the two endpoint abscissae |
| Geometry.CrossesIffRayHits | manuallyStrokeExtractToolMainWindow.py:235-241 | the flag flips exactly when the edge spans y and meets the rightward ray from (x, y); the `x <= max` guard never decides the outcome |
| RayCasting.Edges | manuallyStrokeExtractToolMainWindow.py:232-234 | the n edges the walk over `poly[i % n]` closes: each edge ends where the next begins, and the last ends where the first begins |
| RayCasting.EdgesJoinVertices | manuallyStrokeExtractToolMainWindow.py:232-234 | edge i joins `poly[i]` to `poly[(i + 1) % n]`, the pair of vertices the scan reads at step i + 1, so the edge list is exactly the boundary the loop walks |
| RayCasting.PointInPolygon | manuallyStrokeExtractToolMainWindow.py:227-244 | reference reading of the result: inside when an odd number of closed edges passes the crossing rule, so an inside point always crosses some edge |
| RayCasting.VisitEdge | manuallyStrokeExtractToolMainWindow.py:234-242 | one loop iteration never reads `xints` unbound or stale, and it flips the flag exactly when the crossing rule holds for the edge |
| RayCasting.RayTracing | manuallyStrokeExtractToolMainWindow.py:227-244 | the scan, from the self-edge through n + 1 edges, returns true exactly when the number of crossed closed edges is odd |
| RayCasting.CrossingCountStep | manuallyStrokeExtractToolMainWindow.py:240-241 | visiting one more edge adds one to the count exactly when that edge is crossed |
| RayCasting.CrossingCountAppend | manuallyStrokeExtractToolMainWindow.py:233-242 | the number of flips over two runs of edges is the sum of the flips over each |
| RayCasting.CrossingCountSingle | manuallyStrokeExtractToolMainWindow.py:240-241 | a single edge contributes 1 flip when crossed, else 0 |
| RayCasting.CrossingCountZero | manuallyStrokeExtractToolMainWindow.py:233-242 | no flip happens exactly when no edge satisfies the crossing rule |
| RayCasting.CrossingCountReversed | manuallyStrokeExtractToolMainWindow.py:233-242 | walking the edges backwards, each reversed, gives the same number of flips |
| RayCasting.EdgesOfReverse | manuallyStrokeExtractToolMainWindow.py:232-242 | the closed edges of the reversed vertex list are the reversed edges of the original walked backwards |
| RayCasting.ReversalPreservesInside | manuallyStrokeExtractToolMainWindow.py:227-244 | reversing the vertex list classifies every point alike |
| RayCasting.EdgesOfRotateLeft | manuallyStrokeExtractToolMainWindow.py:232-242 | starting one vertex later rotates the closed edge list by one |
| RayCasting.RotateLeftPreservesInside | manuallyStrokeExtractToolMainWindow.py:227-244 | starting the walk one vertex later classifies every point alike |
| RayCasting.RotationPreservesInside | manuallyStrokeExtractToolMainWindow.py:227-244 | every cyclic rotation of the vertex list classifies every point alike |
| RayCasting.FewerThanThreeVerticesIsOutside | manuallyStrokeExtractToolMainWindow.py:232-242 | with one or two vertices every point is outside: only the self-edge exists, or each edge is visited in both directions so its flips cancel (the empty list, on which `ray_tracing_method` raises `IndexError`, is classified outside only by the reference `PointInPolygon`) |
| RayCasting.YAtMostEveryVertexIsOutside | manuallyStrokeExtractToolMainWindow.py:235 | a point whose y is at most every vertex y is outside |
| RayCasting.YBeyondEveryVertexIsOutside | manuallyStrokeExtractToolMainWindow.py:236 | a point whose y exceeds every vertex y is outside |
| RayCasting.XBeyondEveryVertexIsOutside | manuallyStrokeExtractToolMainWindow.py:237 | a point whose x exceeds every vertex x is outside |
| RayCasting.ClosingVertexPreservesInside | manuallyStrokeExtractToolMainWindow.py:232-242 | repeating the first vertex at the end of the list changes no classification |
| RayCasting.RectangleMembership | manuallyStrokeExtractToolMainWindow.py:227-244 | on an axis-aligned rectangle the test accepts exactly x0 < x <= x1 and y0 < y <= y1: the sides at x = x0 and y = y0 are outside, the sides at x = x1 and y = y1 inside |
| Masking.MaskedPixel | manuallyStrokeExtractToolMainWindow.py:220-221 | the value pixel [y][x] ends with: kept when the test accepts (x, y), else 255; never anything but the original value or 255 |
| Masking.IsMaskOf | manuallyStrokeExtractToolMainWindow.py:216-221 | the masked copy: same row count and row lengths, and every pixel as `MaskedPixel` gives it; each pixel is its input value or 255 |
| Masking.ExtractStrokeByPolygon | manuallyStrokeExtractToolMainWindow.py:214-223 | the output has the input's row count and row lengths, and pixel [y][x] keeps its value when the test accepts (x, y) and is 255 otherwise; a polygon is needed only if the image has a pixel |
| Masking.ExportImage | manuallyStrokeExtractToolMainWindow.py:123-132 | with no image loaded nothing is exported; with no points the image is returned unchanged; otherwise the masked image is returned |
| Masking.MaskIsUnique | manuallyStrokeExtractToolMainWindow.py:214-223 | an image and a polygon determine the masked image completely |
| Masking.MaskIsIdempotent | manuallyStrokeExtractToolMainWindow.py:218-221 | masking an already masked image by the same polygon changes nothing |
| Masking.MaskKeepsBinary | manuallyStrokeExtractToolMainWindow.py:218-221 | an image of only 0 and 255 stays an image of only 0 and 255 |
| Masking.RowForegroundNoMore | manuallyStrokeExtractToolMainWindow.py:219-221 | a row whose pixels are each kept or set to 255 has no more 0 pixels than before |
| Masking.ForegroundNoMoreUpTo | manuallyStrokeExtractToolMainWindow.py:218-221 | over the first k rows, masking leaves no more 0 pixels than the input had |
| Masking.MaskNeverAddsForeground | manuallyStrokeExtractToolMainWindow.py:218-221 | the number of foreground (0) pixels never increases under masking |
| Masking.MaskIgnoresVertexOrder | manuallyStrokeExtractToolMainWindow.py:214-223 | the masked image is the same for the reversed or any rotated vertex list |
| Masking.MaskIgnoresClosingVertex | manuallyStrokeExtractToolMainWindow.py:214-223 | a closing copy of the first vertex at the end of the polygon leaves the masked image unchanged |
| Capture.DistanceSquared | manuallyStrokeExtractToolMainWindow.py:193 | the radicand of `dist`: never negative, and zero from a point to itself |
| Capture.Near | manuallyStrokeExtractToolMainWindow.py:193-194 | the snap test `dist < T_DISTANCE`, compared on squares against 100; a click on the first point itself is always near |
| Capture.SquaredTestAgreesWithDistance | manuallyStrokeExtractToolMainWindow.py:193-194 | over exact reals, comparing the squared distance with 100 decides exactly as comparing the Euclidean distance with T_DISTANCE = 10 (float rounding is not covered; see Left out) |
| Capture.Press | manuallyStrokeExtractToolMainWindow.py:186-203 | a press appends exactly one point and keeps the earlier ones; the first press stores the click; a later press stores the first point exactly when the click is within distance 10 of it, and the click otherwise |
| Capture.Clear | manuallyStrokeExtractToolMainWindow.py:149 | the clear button leaves the point list empty |
| Capture.PressAll | manuallyStrokeExtractToolMainWindow.py:186-203 | a session of presses from an empty scene stores one point per click |
| Capture.CapturedPoints | manuallyStrokeExtractToolMainWindow.py:186-203 | in a session from an empty scene, point 0 is the first click and point i is the first click when click i was near it, else click i itself |
| Capture.PressAfterClearStartsOver | manuallyStrokeExtractToolMainWindow.py:149 | after clearing, the next press starts a new polygon at the click itself, with no snap to the old first point |
| Capture.SnapKeepsClassification | manuallyStrokeExtractToolMainWindow.py:194-203 | a press that snaps onto the first point changes no ray-casting classification |

## Left out

- PyQt drawing: ellipses, lines, pixmaps and scene updates. This covers `mouseReleaseEvent` and the `lastPoint`/`endPoint` fields, which only steer drawing. It is pure display side effect.
- `openBtn`: the file dialog, `QImage` decoding, `cv2.imread` and the `cv2.threshold` binarisation are I/O and foreign library calls. A loaded image is a parameter (`Option<Image>`) of `ExportImage`.
- The save dialog and `cv2.imwrite` in `extractBtn`: the model stops at the image that would be written. With no image loaded, line 124 passes `QMessageBox.information` a parent and one string but no message text, so this branch most likely raises `TypeError` instead of showing a box. Either way nothing is saved, and the `NoImageLoaded` error value stands for that.
- `radicalsExtractBtn` and `radicalsListView_clicked` call `splitConnectedComponents`. Its module `utils/Functions.py` is not part of this model, so the radical naming loop is left out as well.
- `exitBtn`, `setOption`, the unused `strokes` list and application start-up are left out.
- Floating-point rounding is not modelled: not of the click coordinates, not of the intercept division, and not of the snap test's squared distance and `math.sqrt` (lines 193-194). Over floats, reversal and rotation invariance can fail at ties; over exact reals they hold.
- Capture.SquaredTestAgreesWithDistance: holds over exact reals only. In IEEE doubles, with first point (0, 0) and a click at (6.0, 7.999999999999999), the squared distance rounds to 99.99999999999999 (below 100, so the model snaps), while `math.sqrt` of it rounds to 10.0 (not below 10, so the tool appends the click).
- The `self.scene.points is None` test in `extractBtn` is left out: the list is never `None` in the tool, so only the empty-list case is modelled.

=== FILE: capture.dfy ===
/**
 * Polygon capture in the drawing scene of manuallyStrokeExtractToolMainWindow.py:
 * each mouse press appends one point, snapping to the first point when the
 * click falls within the snapping radius, and the clear button empties the list.
 */
module Capture {
  import opened Geometry
  import opened RayCasting

  /** The snapping radius around the first captured point (T_DISTANCE). */
  const SnapDistance: real := 10.0

  /** The squared Euclidean distance between two points: never negative, zero from a point to itself. */
  function DistanceSquared(p: Point, q: Point): (r: real)
    ensures 0.0 <= r
    ensures p == q ==> r == 0.0
  {
    SquareIsNonNegative(p.x - q.x);
    SquareIsNonNegative(p.y - q.y);
    (p.x - q.x) * (p.x - q.x) + (p.y - q.y) * (p.y - q.y)
  }

  lemma SquareIsNonNegative(u: real)
    ensures 0.0 <= u * u
  {
  }

  /** The click lies within the snapping radius of `anchor`, compared on squares. */
  predicate Near(click: Point, anchor: Point)
    ensures click == anchor ==> Near(click, anchor)
  {
    DistanceSquared(click, anchor) < SnapDistance * SnapDistance
  }

  /**
   * The squared comparison decides exactly as `mousePressEvent`'s comparison of the
   * Euclidean distance `d` (the non-negative root of the squared distance).
   */
  lemma SquaredTestAgreesWithDistance(click: Point, anchor: Point, d: real)
    requires 0.0 <= d && d * d == DistanceSquared(click, anchor)
    ensures d < SnapDistance <==> Near(click, anchor)
  {
    if d < SnapDistance {
      assert d * d <= d * SnapDistance;
      assert d * SnapDistance < SnapDistance * SnapDistance;
    } else {
      assert d * d >= d * SnapDistance;
      assert d * SnapDistance >= SnapDistance * SnapDistance;
    }
  }

  /** One mouse press: the first click is stored as is, a later one snaps to the first point when near it. */
  function Press(points: seq<Point>, click: Point): (r: seq<Point>)
    ensures |r| == |points| + 1
    ensures r[..|points|] == points
    ensures r[0] == if |points| == 0 then click else points[0]
    ensures r[|points|] == click || r[|points|] == points[0]
    ensures |points| > 0 ==> (r[|points|] == points[0] <==> Near(click, points[0]))
  {
    if |points| == 0 then [click]
    else if Near(click, points[0]) then points + [points[0]]
    else points + [click]
  }

  /** The clear button: the captured polygon becomes empty. */
  function Clear(points: seq<Point>): (r: seq<Point>)
    ensures |r| == 0
  {
    []
  }

  /** The polygon captured by a series of presses on an empty scene. */
  function PressAll(clicks: seq<Point>): (r: seq<Point>)
    ensures |r| == |clicks|
  {
    if |clicks| == 0 then []
    else Press(PressAll(clicks[..|clicks| - 1]), clicks[|clicks| - 1])
  }

  /**
   * Closed form of a capture session: the first point is the first click,
   * and every later point is the first click when the click that made it was
   * near the first click, and that click itself otherwise.
   */
  lemma {:induction false} CapturedPoints(clicks: seq<Point>)
    requires |clicks| > 0
    ensures PressAll(clicks)[0] == clicks[0]
    ensures forall i :: 0 < i < |clicks| ==>
              PressAll(clicks)[i] == if Near(clicks[i], clicks[0]) then clicks[0] else clicks[i]
    decreases |clicks|
  {
    var n := |clicks|;
    if n > 1 {
      var front := clicks[..n - 1];
      CapturedPoints(front);
      assert front[0] == clicks[0];
      assert forall i :: 0 < i < n - 1 ==> front[i] == clicks[i];
    }
  }

  /** After clearing, the next press starts a new polygon at the click itself. */
  lemma PressAfterClearStartsOver(points: seq<Point>, click: Point)
    ensures Press(Clear(points), click) == [click]
  {
  }

  /**
   * A press that snaps closes the polygon without changing which points the
   * ray-casting test accepts.
   */
  lemma SnapKeepsClassification(points: seq<Point>, click: Point, x: real, y: real)
    requires |points| > 0 && Near(click, points[0])
    ensures PointInPolygon(x, y, Press(points, click)) == PointInPolygon(x, y, points)
  {
    ClosingVertexPreservesInside(x, y, points);
  }
}

=== FILE: geometry.dfy ===
/**
 * Plane geometry behind the ray-casting test of
 * manuallyStrokeExtractToolMainWindow.py: points, directed edges, and the
 * crossing rule the test applies to one edge.
 *
 * Coordinates are exact reals. The tool works on floating-point scene
 * coordinates; rounding is not modelled.
 */
module Geometry {

  /** A point of the drawing scene (a captured click or a pixel index). */
  datatype Point = Point(x: real, y: real)

  /** The directed edge from `a` to `b` that the scan visits. */
  datatype Edge = Edge(a: Point, b: Point)

  function Min(u: real, v: real): (r: real)
    ensures r <= u && r <= v && (r == u || r == v)
  {
    if u <= v then u else v
  }

  function Max(u: real, v: real): (r: real)
    ensures u <= r && v <= r && (r == u || r == v)
  {
    if u >= v then u else v
  }

  /** The edge with its endpoints swapped. */
  function Flip(e: Edge): (f: Edge) {
    Edge(e.b, e.a)
  }

  /** `y` lies in the half-open span (lowest endpoint y, highest endpoint y]. */
  predicate SpansY(y: real, e: Edge)
    ensures SpansY(y, e) <==> e.a.y < y <= e.b.y || e.b.y < y <= e.a.y
    ensures SpansY(y, e) ==> e.a.y != e.b.y
  {
    Min(e.a.y, e.b.y) < y <= Max(e.a.y, e.b.y)
  }

  /** The abscissa at height `y` of the line through the edge (`xints` in `ray_tracing_method`). */
  function XIntercept(y: real, e: Edge): (r: real)
    requires e.a.y != e.b.y
    ensures (r - e.a.x) * (e.b.y - e.a.y) == (y - e.a.y) * (e.b.x - e.a.x)
    ensures y == e.a.y ==> r == e.a.x
    ensures y == e.b.y ==> r == e.b.x
  {
    (y - e.a.y) * (e.b.x - e.a.x) / (e.b.y - e.a.y) + e.a.x
  }

  /**
   * The guard under which the scan flips its `inside` flag for edge `e` and
   * query point (x, y): the span test, the test against the larger endpoint
   * abscissa, and then either a vertical edge or a crossing at or right of x.
   */
  predicate EdgeCrosses(x: real, y: real, e: Edge)
    ensures EdgeCrosses(x, y, e) ==> e.a.y != e.b.y
  {
    && SpansY(y, e)
    && x <= Max(e.a.x, e.b.x)
    && (e.a.x == e.b.x || x <= XIntercept(y, e))
  }

  /** A horizontal edge (the degenerate self-edge included) never flips the flag. */
  lemma HorizontalEdgeNeverCrosses(x: real, y: real, e: Edge)
    requires e.a.y == e.b.y
    ensures !SpansY(y, e)
    ensures !EdgeCrosses(x, y, e)
  {
  }

  /** Over the reals the intercept does not depend on the edge's direction:
    * both intercepts satisfy the same line equation, scaled by a nonzero height. */
  lemma XInterceptSymmetric(y: real, e: Edge)
    requires e.a.y != e.b.y
    ensures XIntercept(y, Flip(e)) == XIntercept(y, e)
  {
    var d := e.b.y - e.a.y;
    var dx := e.b.x - e.a.x;
    var u := XIntercept(y, e);
    var v := XIntercept(y, Flip(e));
    assert (u - e.a.x) * d == (y - e.a.y) * dx;
    assert (v - e.b.x) * (-d) == (y - e.b.y) * (-dx);
    assert (v - e.b.x) * d == (y - e.b.y) * dx;
    assert (u - v) * d == (e.b.y - e.a.y) * dx - (e.b.x - e.a.x) * d;
    assert (u - v) * d == 0.0;
  }

  /** The crossing rule treats an edge and its reverse alike. */
  lemma EdgeCrossesSymmetric(x: real, y: real, e: Edge)
    ensures EdgeCrosses(x, y, Flip(e)) == EdgeCrosses(x, y, e)
  {
    if SpansY(y, e) {
      XInterceptSymmetric(y, e);
    }
  }

  /** On a spanning edge the intercept lies between the endpoint abscissae. */
  lemma XInterceptWithinEdge(y: real, e: Edge)
    requires SpansY(y, e)
    ensures Min(e.a.x, e.b.x) <= XIntercept(y, e) <= Max(e.a.x, e.b.x)
  {
    var d := e.b.y - e.a.y;
    var dx := e.b.x - e.a.x;
    var t := (y - e.a.y) / d;
    assert 0.0 <= t <= 1.0 by {
      if d > 0.0 {
        assert 0.0 < y - e.a.y <= d;
      } else {
        assert d <= y - e.a.y <= 0.0;
        assert t == (e.a.y - y) / (-d);
      }
    }
    QuotientOfProduct(y - e.a.y, dx, d);
    assert XIntercept(y, e) == t * dx + e.a.x;
    assert t * dx + (1.0 - t) * dx == dx;
    if dx >= 0.0 {
      NonNegativeProduct(t, dx);
      NonNegativeProduct(1.0 - t, dx);
    } else {
      NonNegativeProduct(t, -dx);
      NonNegativeProduct(1.0 - t, -dx);
    }
  }

  lemma QuotientOfProduct(p: real, q: real, d: real)
    requires d != 0.0
    ensures p * q / d == (p / d) * q
  {
  }

  lemma NonNegativeProduct(p: real, q: real)
    requires 0.0 <= p && 0.0 <= q
    ensures 0.0 <= p * q
  {
  }

  /**
   * Independent reading of the crossing rule: the edge spans the query
   * height and meets the horizontal ray from (x, y) towards +x. The test
   * against the larger endpoint abscissa never decides the outcome.
   */
  lemma CrossesIffRayHits(x: real, y: real, e: Edge)
    ensures EdgeCrosses(x, y, e) <==> SpansY(y, e) && x <= XIntercept(y, e)
  {
    if SpansY(y, e) {
      XInterceptWithinEdge(y, e);
      if e.a.x == e.b.x {
        assert XIntercept(y, e) == e.a.x;
      }
    }
  }
}

=== FILE: masking.dfy ===
/**
 * Polygon masking of a grayscale image (`extractStorkeByPolygon`) and the
 * export-time choice of the extract button (`extractBtn`) in
 * manuallyStrokeExtractToolMainWindow.py.
 *
 * Images are immutable values, so the defensive `image.copy()` of `extractStorkeByPolygon` is implicit:
 * the caller's image is never changed.
 */
module Masking {
  import opened Wrappers
  import opened Geometry
  import opened RayCasting

  /** A grayscale image as rows of intensities, indexed [y][x]. */
  type Image = seq<seq<int>>

  /** The white background every masked-out pixel is forced to. */
  const Background: int := 255

  /** The foreground (ink) value of a binarised image. */
  const Foreground: int := 0

  /** The image has at least one pixel, so the masking loop tests some point. */
  predicate HasPixel(img: Image) {
    exists y :: 0 <= y < |img| && |img[y]| > 0
  }

  /** What the mask makes of pixel (x, y): kept when the test accepts (x, y), else background. */
  function MaskedPixel(img: Image, poly: seq<Point>, y: nat, x: nat): (r: int)
    requires y < |img| && x < |img[y]|
    ensures r == img[y][x] || r == Background
  {
    if PointInPolygon(x as real, y as real, poly) then img[y][x] else Background
  }

  /**
   * `out` is `img` masked by `poly`: same number of rows, same row lengths,
   * and every pixel at integer index (x, y) (no pixel-centre offset) kept
   * when the test accepts (x, y) and forced to background otherwise.
   */
  predicate IsMaskOf(img: Image, poly: seq<Point>, out: Image)
    ensures IsMaskOf(img, poly, out) ==>
              forall y, x :: 0 <= y < |img| && y < |out| && 0 <= x < |img[y]| && x < |out[y]| ==>
                out[y][x] == img[y][x] || out[y][x] == Background
  {
    && |out| == |img|
    && (forall y :: 0 <= y < |img| ==> |out[y]| == |img[y]|)
    && (forall y, x :: 0 <= y < |img| && 0 <= x < |img[y]| ==> out[y][x] == MaskedPixel(img, poly, y, x))
  }

  /**
   * The masking loop of `extractStorkeByPolygon`, row by row and column by column, calling
   * the scan for each pixel. The scan indexes vertex 0, so a polygon is
   * needed as soon as the image has a pixel.
   */
  method ExtractStrokeByPolygon(image: Image, polygon: seq<Point>) returns (out: Image)
    requires |polygon| > 0 || !HasPixel(image)
    ensures IsMaskOf(image, polygon, out)
  {
    out := image;
    var y := 0;
    while y < |image|
      invariant 0 <= y <= |image|
      invariant |out| == |image|
      invariant forall j :: 0 <= j < |image| ==> |out[j]| == |image[j]|
      invariant forall j :: y <= j < |image| ==> out[j] == image[j]
      invariant forall j, i :: 0 <= j < y && 0 <= i < |image[j]| ==> out[j][i] == MaskedPixel(image, polygon, j, i)
    {
      var x := 0;
      while x < |image[y]|
        invariant 0 <= x <= |image[y]|
        invariant |out| == |image|
        invariant forall j :: 0 <= j < |image| ==> |out[j]| == |image[j]|
        invariant forall j :: y < j < |image| ==> out[j] == image[j]
        invariant forall j, i :: 0 <= j < y && 0 <= i < |image[j]| ==> out[j][i] == MaskedPixel(image, polygon, j, i)
        invariant forall i :: 0 <= i < x ==> out[y][i] == MaskedPixel(image, polygon, y, i)
        invariant forall i :: x <= i < |image[y]| ==> out[y][i] == image[y][i]
      {
        assert HasPixel(image) by {
          assert 0 <= y < |image| && |image[y]| > 0;
        }
        var inside := RayTracing(x as real, y as real, polygon);
        if !inside {
          out := out[y := out[y][x := Background]];
        }
        x := x + 1;
      }
      y := y + 1;
    }
  }

  /** Why an export request is refused. */
  datatype ExportError = NoImageLoaded

  /**
   * The image the extract button saves: refused when no image is loaded, the
   * image itself when no point was captured, and the masked image otherwise.
   */
  method ExportImage(image: Option<Image>, points: seq<Point>) returns (r: Result<Image, ExportError>)
    ensures image.None? <==> r == Failure(NoImageLoaded)
    ensures image.Some? && |points| == 0 ==> r == Success(image.value)
    ensures image.Some? && |points| > 0 ==> r.Success? && IsMaskOf(image.value, points, r.value)
  {
    match image
    case None =>
      return Failure(NoImageLoaded);
    case Some(img) =>
      if |points| == 0 {
        return Success(img);
      }
      var masked := ExtractStrokeByPolygon(img, points);
      return Success(masked);
  }

  /** The mask of an image by a polygon is a single image. */
  lemma MaskIsUnique(img: Image, poly: seq<Point>, a: Image, b: Image)
    requires IsMaskOf(img, poly, a) && IsMaskOf(img, poly, b)
    ensures a == b
  {
    forall y | 0 <= y < |img|
      ensures a[y] == b[y]
    {
    }
  }

  /** Masking twice by the same polygon changes nothing more. */
  lemma MaskIsIdempotent(img: Image, poly: seq<Point>, once: Image, twice: Image)
    requires IsMaskOf(img, poly, once) && IsMaskOf(once, poly, twice)
    ensures twice == once
  {
    forall y | 0 <= y < |img|
      ensures twice[y] == once[y]
    {
    }
  }

  /** Every pixel is foreground (0) or background (255). */
  predicate IsBinary(img: Image) {
    forall y, x :: 0 <= y < |img| && 0 <= x < |img[y]| ==> img[y][x] == Foreground || img[y][x] == Background
  }

  /** A binarised image stays binarised under masking. */
  lemma MaskKeepsBinary(img: Image, poly: seq<Point>, out: Image)
    requires IsBinary(img) && IsMaskOf(img, poly, out)
    ensures IsBinary(out)
  {
  }

  /** The number of foreground pixels of one row. */
  function RowForeground(row: seq<int>): (k: nat) {
    if |row| == 0 then 0
    else RowForeground(row[..|row| - 1]) + (if row[|row| - 1] == Foreground then 1 else 0)
  }

  /** The number of foreground pixels of an image. */
  function ForegroundCount(img: Image): (k: nat) {
    if |img| == 0 then 0
    else ForegroundCount(img[..|img| - 1]) + RowForeground(img[|img| - 1])
  }

  /** A row whose pixels are kept or whitened has no more foreground than before. */
  lemma {:induction false} RowForegroundNoMore(row: seq<int>, masked: seq<int>)
    requires |masked| == |row|
    requires forall i :: 0 <= i < |row| ==> masked[i] == row[i] || masked[i] == Background
    ensures RowForeground(masked) <= RowForeground(row)
    decreases |row|
  {
    if |row| > 0 {
      var n := |row|;
      RowForegroundNoMore(row[..n - 1], masked[..n - 1]);
    }
  }

  /** Pixel-wise comparison of two images of one shape, restricted to their first k rows. */
  lemma {:induction false} ForegroundNoMoreUpTo(img: Image, poly: seq<Point>, out: Image, k: nat)
    requires IsMaskOf(img, poly, out)
    requires k <= |img|
    ensures ForegroundCount(out[..k]) <= ForegroundCount(img[..k])
    decreases k
  {
    if k > 0 {
      ForegroundNoMoreUpTo(img, poly, out, k - 1);
      assert out[..k][..k - 1] == out[..k - 1];
      assert img[..k][..k - 1] == img[..k - 1];
      RowForegroundNoMore(img[k - 1], out[k - 1]);
    }
  }

  /** Masking never adds foreground: the ink count can only fall. */
  lemma MaskNeverAddsForeground(img: Image, poly: seq<Point>, out: Image)
    requires IsMaskOf(img, poly, out)
    ensures ForegroundCount(out) <= ForegroundCount(img)
  {
    ForegroundNoMoreUpTo(img, poly, out, |img|);
    assert out[..|img|] == out;
    assert img[..|img|] == img;
  }

  /** The mask does not depend on the orientation or the start vertex of the polygon. */
  lemma MaskIgnoresVertexOrder(img: Image, poly: seq<Point>, out: Image, k: nat)
    requires k <= |poly|
    requires IsMaskOf(img, poly, out)
    ensures IsMaskOf(img, Reverse(poly), out)
    ensures IsMaskOf(img, Rotate(poly, k), out)
  {
    forall y, x | 0 <= y < |img| && 0 <= x < |img[y]|
      ensures MaskedPixel(img, Reverse(poly), y, x) == MaskedPixel(img, poly, y, x)
      ensures MaskedPixel(img, Rotate(poly, k), y, x) == MaskedPixel(img, poly, y, x)
    {
      ReversalPreservesInside(x as real, y as real, poly);
      RotationPreservesInside(x as real, y as real, poly, k);
    }
  }

  /** A closing click snapped onto the first vertex leaves the mask unchanged. */
  lemma MaskIgnoresClosingVertex(img: Image, poly: seq<Point>, out: Image)
    requires |poly| > 0
    requires IsMaskOf(img, poly, out)
    ensures IsMaskOf(img, poly + [poly[0]], out)
  {
    forall y, x | 0 <= y < |img| && 0 <= x < |img[y]|
      ensures MaskedPixel(img, poly + [poly[0]], y, x) == MaskedPixel(img, poly, y, x)
    {
      ClosingVertexPreservesInside(x as real, y as real, poly);
    }
  }
}

=== FILE: ray_casting.dfy ===
/**
 * The even-odd ray-casting test `ray_tracing_method` of
 * manuallyStrokeExtractToolMainWindow.py: a reference definition as the
 * parity of a crossing count, the scan loop as `ray_tracing_method` writes it, and the
 * structural facts about the test.
 */
module RayCasting {
  import opened Wrappers
  import opened Geometry

  /** The closed boundary of `poly`: edge i joins vertex i to vertex (i + 1) mod n. */
  function Edges(poly: seq<Point>): (es: seq<Edge>)
    ensures |es| == |poly|
    ensures forall i :: 0 <= i < |es| - 1 ==> es[i].b == es[i + 1].a
    ensures |es| > 0 ==> es[|es| - 1].b == es[0].a
  {
    seq(|poly|, i requires 0 <= i < |poly| => Edge(poly[i], poly[if i + 1 == |poly| then 0 else i + 1]))
  }

  /** Edge i joins `poly[i]` to `poly[(i + 1) % n]`, the pair the scan reads at step i + 1. */
  lemma EdgesJoinVertices(poly: seq<Point>)
    ensures forall i :: 0 <= i < |poly| ==> Edges(poly)[i] == Edge(poly[i], poly[(i + 1) % |poly|])
  {
  }

  /** The number of edges of `es` whose crossing rule holds for (x, y). */
  function CrossingCount(x: real, y: real, es: seq<Edge>): (k: nat)
    ensures k <= |es|
  {
    if |es| == 0 then 0
    else CrossingCount(x, y, es[..|es| - 1]) + (if EdgeCrosses(x, y, es[|es| - 1]) then 1 else 0)
  }

  predicate IsOdd(k: nat) {
    k % 2 == 1
  }

  /** Reference definition: (x, y) is inside when an odd number of edges is crossed. */
  predicate PointInPolygon(x: real, y: real, poly: seq<Point>)
    ensures PointInPolygon(x, y, poly) ==> exists i :: 0 <= i < |poly| && EdgeCrosses(x, y, Edges(poly)[i])
  {
    CrossingCountZero(x, y, Edges(poly));
    IsOdd(CrossingCount(x, y, Edges(poly)))
  }

  /** The scan reads the intercept before any assignment to it (an unbound local). */
  datatype ScanError = UnboundIntercept

  /** The scan's locals carried from one edge to the next. */
  datatype ScanState = ScanState(inside: bool, xints: Option<real>)

  /**
   * One iteration of the scan on the edge (p1, p2): the nested guards, the
   * intercept assigned only on a non-horizontal edge, and the read of the
   * intercept unless the edge is vertical. Whatever the intercept held
   * before, the read never finds it unbound, and the flag flips exactly when
   * the crossing rule holds.
   */
  method VisitEdge(x: real, y: real, p1: Point, p2: Point, s: ScanState)
    returns (r: Result<ScanState, ScanError>)
    ensures r.Success?
    ensures r.value.inside == (s.inside != EdgeCrosses(x, y, Edge(p1, p2)))
  {
    var inside := s.inside;
    var xints := s.xints;
    if y > Min(p1.y, p2.y) {
      if y <= Max(p1.y, p2.y) {
        if x <= Max(p1.x, p2.x) {
          if p1.y != p2.y {
            xints := Some(XIntercept(y, Edge(p1, p2)));
          }
          if p1.x == p2.x {
            inside := !inside;
          } else {
            match xints
            case None =>
              return Failure(UnboundIntercept);
            case Some(v) =>
              if x <= v {
                inside := !inside;
              }
          }
        }
      }
    }
    return Success(ScanState(inside, xints));
  }

  /**
   * The scan of `ray_tracing_method`: it starts from the degenerate self-edge
   * (poly[0], poly[0]) and visits n + 1 edges, each closing edge once; the
   * flag it returns is the parity of the crossing count.
   */
  method RayTracing(x: real, y: real, poly: seq<Point>) returns (inside: bool)
    requires |poly| > 0
    ensures inside == PointInPolygon(x, y, poly)
  {
    var n := |poly|;
    var s := ScanState(false, None);
    var p1 := poly[0];
    var i := 0;
    while i < n + 1
      invariant 0 <= i <= n + 1
      invariant p1 == poly[if i == 0 || i == n + 1 then 0 else i - 1]
      invariant s.inside == IsOdd(CrossingCount(x, y, Edges(poly)[..if i == 0 then 0 else i - 1]))
    {
      var p2 := poly[if i == n then 0 else i];  // i mod n, as 0 <= i <= n
      var step := VisitEdge(x, y, p1, p2, s);
      if i == 0 {
        HorizontalEdgeNeverCrosses(x, y, Edge(p1, p2));
      } else {
        assert Edges(poly)[i - 1] == Edge(p1, p2);
        CrossingCountStep(x, y, Edges(poly), i);
      }
      s := step.value;
      p1 := p2;
      i := i + 1;
    }
    assert Edges(poly)[..n] == Edges(poly);
    inside := s.inside;
  }

  /** Extending a prefix of the edge list by one edge adds that edge's crossing. */
  lemma CrossingCountStep(x: real, y: real, es: seq<Edge>, i: nat)
    requires 0 < i <= |es|
    ensures CrossingCount(x, y, es[..i])
         == CrossingCount(x, y, es[..i - 1]) + (if EdgeCrosses(x, y, es[i - 1]) then 1 else 0)
  {
    assert es[..i][..i - 1] == es[..i - 1];
  }

  /** Counting distributes over concatenation of edge lists. */
  lemma {:induction false} CrossingCountAppend(x: real, y: real, a: seq<Edge>, b: seq<Edge>)
    ensures CrossingCount(x, y, a + b) == CrossingCount(x, y, a) + CrossingCount(x, y, b)
    decreases |b|
  {
    if |b| == 0 {
      assert a + b == a;
    } else {
      var front := b[..|b| - 1];
      assert (a + b)[..|a + b| - 1] == a + front;
      assert (a + b)[|a + b| - 1] == b[|b| - 1];
      CrossingCountAppend(x, y, a, front);
    }
  }

  /** A one-edge list counts 1 exactly when that edge is crossed. */
  lemma CrossingCountSingle(x: real, y: real, e: Edge)
    ensures CrossingCount(x, y, [e]) == if EdgeCrosses(x, y, e) then 1 else 0
  {
  }

  /** The count is zero exactly when no edge of the list is crossed. */
  lemma {:induction false} CrossingCountZero(x: real, y: real, es: seq<Edge>)
    ensures CrossingCount(x, y, es) == 0 <==> forall i :: 0 <= i < |es| ==> !EdgeCrosses(x, y, es[i])
    decreases |es|
  {
    if |es| > 0 {
      var front := es[..|es| - 1];
      CrossingCountZero(x, y, front);
      assert forall i :: 0 <= i < |front| ==> front[i] == es[i];
    }
  }

  /** The edge list walked backwards, each edge reversed. */
  function ReversedEdges(es: seq<Edge>): (rs: seq<Edge>)
    ensures |rs| == |es|
  {
    seq(|es|, i requires 0 <= i < |es| => Flip(es[|es| - 1 - i]))
  }

  /** Walking the edges backwards does not change the count. */
  lemma {:induction false} CrossingCountReversed(x: real, y: real, es: seq<Edge>)
    ensures CrossingCount(x, y, ReversedEdges(es)) == CrossingCount(x, y, es)
    decreases |es|
  {
    if |es| > 0 {
      var front := es[..|es| - 1];
      var last := es[|es| - 1];
      assert ReversedEdges(es) == [Flip(last)] + ReversedEdges(front);
      CrossingCountAppend(x, y, [Flip(last)], ReversedEdges(front));
      CrossingCountReversed(x, y, front);
      CrossingCountSingle(x, y, Flip(last));
      EdgeCrossesSymmetric(x, y, last);
    }
  }

  /** The vertex list in reverse order (the same boundary, walked the other way). */
  function Reverse(poly: seq<Point>): (r: seq<Point>)
    ensures |r| == |poly|
  {
    seq(|poly|, i requires 0 <= i < |poly| => poly[|poly| - 1 - i])
  }

  lemma EdgesOfReverse(poly: seq<Point>)
    requires |poly| > 0
    ensures Edges(Reverse(poly))
         == ReversedEdges(Edges(poly)[..|poly| - 1]) + [Flip(Edges(poly)[|poly| - 1])]
  {
    var n := |poly|;
    var es := Edges(poly);
    var lhs := Edges(Reverse(poly));
    var rhs := ReversedEdges(es[..n - 1]) + [Flip(es[n - 1])];
    forall i | 0 <= i < n
      ensures lhs[i] == rhs[i]
    {
      var rp := Reverse(poly);
      if i < n - 1 {
        assert lhs[i] == Edge(rp[i], rp[i + 1]);
        assert es[n - 2 - i] == Edge(poly[n - 2 - i], poly[n - 1 - i]);
        assert rhs[i] == Flip(es[n - 2 - i]);
      } else {
        assert lhs[i] == Edge(rp[n - 1], rp[0]);
        assert es[n - 1] == Edge(poly[n - 1], poly[0]);
      }
    }
  }

  /** Reversing the vertex list does not change the classification of any point. */
  lemma ReversalPreservesInside(x: real, y: real, poly: seq<Point>)
    ensures PointInPolygon(x, y, Reverse(poly)) == PointInPolygon(x, y, poly)
  {
    var n := |poly|;
    if n > 0 {
      var es := Edges(poly);
      EdgesOfReverse(poly);
      CrossingCountAppend(x, y, ReversedEdges(es[..n - 1]), [Flip(es[n - 1])]);
      CrossingCountReversed(x, y, es[..n - 1]);
      CrossingCountSingle(x, y, Flip(es[n - 1]));
      EdgeCrossesSymmetric(x, y, es[n - 1]);
      CrossingCountStep(x, y, es, n);
      assert es[..n] == es;
    }
  }

  /** The vertex list rotated by one: vertex 0 moves to the end. */
  function RotateLeft(poly: seq<Point>): (r: seq<Point>)
    requires |poly| > 0
    ensures |r| == |poly|
  {
    poly[1..] + [poly[0]]
  }

  lemma EdgesOfRotateLeft(poly: seq<Point>)
    requires |poly| > 0
    ensures Edges(RotateLeft(poly)) == Edges(poly)[1..] + [Edges(poly)[0]]
  {
  }

  /** Starting the walk one vertex later does not change the classification. */
  lemma RotateLeftPreservesInside(x: real, y: real, poly: seq<Point>)
    requires |poly| > 0
    ensures PointInPolygon(x, y, RotateLeft(poly)) == PointInPolygon(x, y, poly)
  {
    EdgesOfRotateLeft(poly);
    CrossingCountRotateLeft(x, y, Edges(poly));
  }

  /** Moving the first edge of a list to its end keeps the crossing count. */
  lemma CrossingCountRotateLeft(x: real, y: real, es: seq<Edge>)
    requires |es| > 0
    ensures CrossingCount(x, y, es[1..] + [es[0]]) == CrossingCount(x, y, es)
  {
    var head, tail := [es[0]], es[1..];
    assert head + tail == es;
    CrossingCountAppend(x, y, tail, head);
    CrossingCountAppend(x, y, head, tail);
  }

  /** The vertex list started at vertex k. */
  function Rotate(poly: seq<Point>, k: nat): (r: seq<Point>)
    requires k <= |poly|
    ensures |r| == |poly|
  {
    poly[k..] + poly[..k]
  }

  /** Starting at vertex k is starting at vertex k - 1 and rotating once more. */
  lemma RotateStep(poly: seq<Point>, k: nat)
    requires 0 < k <= |poly|
    ensures Rotate(poly, k) == RotateLeft(Rotate(poly, k - 1))
  {
  }

  /** Any cyclic rotation of the vertex list classifies every point alike. */
  lemma {:induction false} RotationPreservesInside(x: real, y: real, poly: seq<Point>, k: nat)
    requires k <= |poly|
    ensures PointInPolygon(x, y, Rotate(poly, k)) == PointInPolygon(x, y, poly)
  {
    if k == 0 {
      assert Rotate(poly, 0) == poly;
    } else {
      RotationPreservesInside(x, y, poly, k - 1);
      RotateStep(poly, k);
      RotateLeftPreservesInside(x, y, Rotate(poly, k - 1));
    }
  }

  /** A polygon of fewer than three vertices has no inside. */
  lemma FewerThanThreeVerticesIsOutside(x: real, y: real, poly: seq<Point>)
    requires |poly| < 3
    ensures !PointInPolygon(x, y, poly)
  {
    var es := Edges(poly);
    if |poly| == 1 {
      HorizontalEdgeNeverCrosses(x, y, es[0]);
      CrossingCountSingle(x, y, es[0]);
      assert es == [es[0]];
    } else if |poly| == 2 {
      assert es[1] == Flip(es[0]);
      EdgeCrossesSymmetric(x, y, es[0]);
      CrossingCountAppend(x, y, [es[0]], [es[1]]);
      CrossingCountSingle(x, y, es[0]);
      CrossingCountSingle(x, y, es[1]);
      assert es == [es[0]] + [es[1]];
    }
  }

  /** A point whose y is at most every vertex's y crosses no edge. */
  lemma YAtMostEveryVertexIsOutside(x: real, y: real, poly: seq<Point>)
    requires forall i :: 0 <= i < |poly| ==> y <= poly[i].y
    ensures !PointInPolygon(x, y, poly)
  {
  }

  /** A point whose y exceeds every vertex's y crosses no edge. */
  lemma YBeyondEveryVertexIsOutside(x: real, y: real, poly: seq<Point>)
    requires forall i :: 0 <= i < |poly| ==> y > poly[i].y
    ensures !PointInPolygon(x, y, poly)
  {
  }

  /** A point whose x exceeds every vertex's x crosses no edge. */
  lemma XBeyondEveryVertexIsOutside(x: real, y: real, poly: seq<Point>)
    requires forall i :: 0 <= i < |poly| ==> x > poly[i].x
    ensures !PointInPolygon(x, y, poly)
  {
  }

  /**
   * Repeating the first vertex at the end (what a snapped closing click
   * stores) adds only a degenerate edge and changes no classification.
   */
  lemma ClosingVertexPreservesInside(x: real, y: real, poly: seq<Point>)
    requires |poly| > 0
    ensures PointInPolygon(x, y, poly + [poly[0]]) == PointInPolygon(x, y, poly)
  {
    var es := Edges(poly);
    var closing := Edge(poly[0], poly[0]);
    assert Edges(poly + [poly[0]]) == es + [closing];
    CrossingCountAppend(x, y, es, [closing]);
    CrossingCountSingle(x, y, closing);
    HorizontalEdgeNeverCrosses(x, y, closing);
  }

  /** The axis-aligned rectangle with corners (x0, y0), (x1, y0), (x1, y1), (x0, y1), in that order. */
  function Rectangle(x0: real, y0: real, x1: real, y1: real): (r: seq<Point>)
    ensures |r| == 4
  {
    [Point(x0, y0), Point(x1, y0), Point(x1, y1), Point(x0, y1)]
  }

  /**
   * On an axis-aligned rectangle the test keeps exactly the points with
   * x0 < x <= x1 and y0 < y <= y1: the sides at x = x0 and y = y0 fall
   * outside, the sides at x = x1 and y = y1 inside.
   */
  lemma RectangleMembership(x: real, y: real, x0: real, y0: real, x1: real, y1: real)
    requires x0 < x1 && y0 < y1
    ensures PointInPolygon(x, y, Rectangle(x0, y0, x1, y1)) <==> x0 < x <= x1 && y0 < y <= y1
  {
    var es := Edges(Rectangle(x0, y0, x1, y1));
    assert es == [es[0]] + [es[1]] + [es[2]] + [es[3]];
    CrossingCountAppend(x, y, [es[0]] + [es[1]] + [es[2]], [es[3]]);
    CrossingCountAppend(x, y, [es[0]] + [es[1]], [es[2]]);
    CrossingCountAppend(x, y, [es[0]], [es[1]]);
    CrossingCountSingle(x, y, es[0]);
    CrossingCountSingle(x, y, es[1]);
    CrossingCountSingle(x, y, es[2]);
    CrossingCountSingle(x, y, es[3]);
    HorizontalEdgeNeverCrosses(x, y, es[0]);
    HorizontalEdgeNeverCrosses(x, y, es[2]);
  }
}

=== FILE: wrappers.dfy ===
/** Failure-carrying result types used across the model. */
module Wrappers {

  /** A value that may be absent, as a Python local that may not yet be bound. */
  datatype Option<+T> = None | Some(value: T)

  /** The outcome of an operation that either produces a value or fails. */
  datatype Result<+R, +E> = Success(value: R) | Failure(error: E)
}
